=== FILE: README.md ===
# Session and account core of remix-room-app, in Dafny

This project models the credential and session logic of a small chat application
built on Remix: the two-token scheme (a short-lived access token and a long-lived
refresh token, each carried in its own cookie), the logout-timestamp test that
revokes refresh tokens, the three page loaders that turn the cookies into a
response, the login, registration and logout actions that change the user table,
the browser-side cache in front of two loaders, and the searchable roster of
active chats on the room page.

Everything is pure: the user table is a sequence of rows passed in and handed
back, the clock is a `nowMs` parameter (milliseconds since the epoch), the
process environment is a map, and the database-generated id of a new user is a
parameter.

## Modules

| file | module | models |
|---|---|---|
| `wrappers.dfy` | `Wrappers` | `Option` and `Result` |
| `seqs.dfy` | `Seqs` | `find`/`findIndex` and `filter` on arrays, subsequences |
| `text.dfy` | `Text` | ASCII `toLowerCase` and `String.prototype.includes` |
| `revocation.dfy` | `Revocation` | `isRefreshTokenAccessable` |
| `jwt.dfy` | `Jwt` | configuration getters, `generate*Token`, `verify*Token` |
| `directory.dfy` | `Directory` | the user table and the ORM lookups and update used by the routes |
| `http.dfy` | `Http` | responses, redirects, `Set-Cookie` actions, the browser's cookie jar |
| `session.dfy` | `Session` | the vocabulary shared by the loaders |
| `index_route.dfy` | `IndexRoute` | loader of `app/routes/_index.tsx` |
| `room_route.dfy` | `RoomRoute` | loader of `app/routes/_room.tsx` |
| `r_layout_route.dfy` | `RLayoutRoute` | loader of `app/routes/_r.tsx` |
| `client_cache.dfy` | `ClientCache` | the `clientLoader` memo of `_index.tsx` and `_room.tsx` |
| `login_route.dfy` | `LoginRoute` | action of `app/routes/login.tsx` |
| `register_route.dfy` | `RegisterRoute` | action of `app/routes/register.tsx` |
| `logout_route.dfy` | `LogoutRoute` | action and loader of `app/routes/logout.ts` |
| `room_index_route.dfy` | `RoomIndexRoute` | `filterChats`, `ActiveChats`, the toast title in `app/routes/_room._index.tsx` |
| `scenarios.dfy` | `Scenarios` | properties that span several requests |

### Modelling choices

- A token is `Signed(secret, Claim(value, iat, exp))` or `Malformed(text)`, and
  a missing cookie is `None`. Verification succeeds exactly when the verifier's
  secret is set and equal to the token's, and the current whole second is before
  `exp`. This is the expiry test of the `jsonwebtoken` library. `iat` is the
  signing time floored to whole seconds.
- `server/lib/utils.js` and `app/lib/utils.ts` hold the same revocation test, and
  `server/lib/jwt.js` and `app/lib/jwt.ts` hold the same token service. Each is
  modelled once. The table's rows cite both copies.
- `isRefreshTokenAccessable` answers `true` when the token was issued before the
  logout, and every caller treats `true` as "revoked". The model keeps the name
  and documents that reading. It reads no clock.
- Responses are `Respond(Returned | Thrown, reply, cookies)`. A reply is a JSON
  response or a `redirect`, `redirectDocument` or `replace` (302).
  `Crash(fault)` stands for an uncaught error. One case is a token setting that is
  unset when a token must be minted. The other is the ORM `update` of a missing
  row in the logout action.
- `await serverLoader()` in a `clientLoader` resolves to the body of a returned
  JSON response, whatever its status, so the room loader's returned 404 resolves
  to `null`. A thrown response, a returned redirect and an uncaught error all
  reject. `ClientCache.ServerLoad` states this rule of the framework.
- The user table is a sequence of rows in insertion order, and lookups return the
  first match. `findUnique({ where: { username, password } })` is the row with the
  unique username, provided its password matches.

### The three loaders differ

- `_index.tsx` throws its 404 and sends a revoked session to "/" with a plain
  `redirect`.
- `_room.tsx` returns its 404 and uses `redirectDocument`.
- `_r.tsx` ignores `logout_at` and checks the boolean `logout` column, which no
  route sets.

## Model

| member | source | states |
|---|---|---|
| `Revocation.IsRefreshTokenAccessable` | server/lib/utils.js:7-9 | revoked exactly when `iat` is before the logout time rounded up to a whole second (`iat*1000 < logoutAt`) |
| `Revocation.BoundaryNotRevoked` | app/lib/utils.ts:8-10 | a token with `iat*1000 == logoutAt` is not revoked |
| `Revocation.RevocationMonotone` | app/lib/utils.ts:9 | revoked for some `iat` and logout time implies revoked for any earlier `iat` and later logout |
| `Revocation.SameSecondIssueRevoked` | server/lib/utils.js:3-8 | a token issued at or after the logout but in the same wall-clock second is still revoked, unless the logout fell on a whole second |
| `Revocation.LaterSecondNotRevoked` | server/lib/utils.js:8 | a token issued in a later second than the logout is never revoked |
| `Jwt.Setting` | server/lib/jwt.js:4-54 | a getter fails, naming the variable, exactly when the variable is missing or empty |
| `Jwt.Generate` | app/lib/jwt.ts:57-70 | generation fails exactly when the kind's secret or lifetime is unset (the secret's error first); otherwise the token is signed with that secret, carries the value, is issued in the current second and expires after the lifetime |
| `Jwt.Verify` | server/lib/jwt.js:70-98 | verification never fails: it yields the claim exactly when the secret is set, matches the token's and the token is unexpired, and `None` for a missing secret, a missing or malformed token, a foreign secret or an expired token |
| `Jwt.RoundTrip` | app/lib/jwt.ts:57-62 | a freshly generated token verifies before expiry to a claim carrying the generated value |
| `Jwt.ExpiredRejected` | server/lib/jwt.js:65-76 | from its expiry second on, a token verifies to `None` |
| `Jwt.CrossKind` | app/lib/jwt.ts:57-77 | an access token passes refresh verification exactly when the refresh secret is set and equals the access secret |
| `Jwt.VerifyIgnoresLifetime` | server/lib/jwt.js:92-98 | verification does not depend on the lifetime settings |
| `Directory.FindById` | app/routes/_index.tsx:45-55 | a found row has the id and is in the table; nothing is found exactly when no row has the id |
| `Directory.FindByUsername` | app/routes/register.tsx:34-38 | a found row has the username; nothing is found exactly when no row has it |
| `Directory.FindByCredentials` | app/routes/login.tsx:32-37 | a found row has both the username and the password; in a table with unique usernames nothing is found exactly when no row has both |
| `Directory.SetLogoutAt` | app/routes/logout.ts:25-32 | the subject's rows get `logout_at = now`, all other rows are unchanged |
| `Directory.FindAfterSetLogoutAt` | app/routes/logout.ts:25-32 | after the update the subject's lookup sees the new logout time and other lookups see the old table |
| `Http.ClearBothEmptiesJar` | server/lib/cookie.js:21-28 | the two clearing headers leave the browser with no session cookie |
| `Http.ApplyCookies` | server/lib/cookie.js:10-28 | the browser applies `Set-Cookie` headers in order: a cookie no header names keeps its value |
| `Http.LastHeaderDecides` | server/lib/cookie.js:13-28 | the last header naming a cookie decides it: a set stores its token and a `maxAge: 0` clear removes it, whatever came before |
| `IndexRoute.Loader` | app/routes/_index.tsx:15-98 | valid access: `true` with no Set-Cookie (the only such answer); neither token: thrown 401 clearing both; missing user: thrown 404 clearing both; revoked: returned redirect to "/" clearing both; a live user's refresh claim: exactly one new access cookie minted for its subject, or, exactly when an access-token setting is unset, the getter's uncaught error for the first unset variable; the refresh cookie is never set |
| `IndexRoute.FastPathIgnoresRefreshAndTable` | app/routes/_index.tsx:32-44 | with a valid access cookie the answer depends neither on the refresh cookie nor on the table |
| `RoomRoute.Loader` | app/routes/_room.tsx:15-112 | valid access: 200 with the looked-up profile or null and no Set-Cookie (no 404 on this path); neither token: thrown 401; missing user: returned (not thrown) 404; revoked: `redirectDocument("/")`; rotation answers the profile with one new access cookie, or, exactly when an access-token setting is unset, the getter's uncaught error for the first unset variable |
| `RoomRoute.AccessPathIgnoresRefresh` | app/routes/_room.tsx:32-58 | with a valid access cookie the refresh cookie is not consulted |
| `RLayoutRoute.Loader` | app/routes/_r.tsx:7-91 | access has priority; a missing or `logout`-flagged user gives a thrown `replace("/login")` clearing both; a live user behind the access cookie gives the profile with no Set-Cookie; the refresh path with a live user adds one new access cookie, or, exactly when an access-token setting is unset, crashes with the first unset variable; no valid token gives a returned redirect to "/login" clearing both |
| `RLayoutRoute.LogoutTimeIgnored` | app/routes/_r.tsx:27-83 | changing a user's `logout_at` never changes this loader's decision; an answered profile can differ only in its `logout_at` field |
| `ClientCache.ClientLoader` | app/routes/_index.tsx:100-111 | a truthy cache is answered without using the server; otherwise a server answer is stored and returned and a rejection stores nothing |
| `ClientCache.ServerLoad` | app/routes/_index.tsx:105 | `serverLoader()` resolves exactly for a returned JSON response, to its body; thrown responses, redirects and crashes reject |
| `ClientCache.TruthyCacheSticks` | app/routes/_index.tsx:104-110 | once a truthy value is cached, no sequence of later calls changes it |
| `ClientCache.RejectionsCacheNothing` | app/routes/_room.tsx:114-125 | while the server keeps throwing, nothing is cached and each call retries |
| `ClientCache.RotationAnswerNotCached` | app/routes/_index.tsx:82-88 | a silent rotation makes the index loader answer `null`, so a falsy cache stays falsy and the next call asks the server again |
| `ClientCache.FastPathAnswerCached` | app/routes/_index.tsx:100-111 | the index loader's fast-path `true` is cached on the first call and served unchanged whatever the server answers later |
| `ClientCache.RoomMissingUserNotCached` | app/routes/_room.tsx:71-78 | the room loader's returned 404 resolves to `null`, so a falsy cache stays falsy and the next call asks the server again |
| `LoginRoute.Action` | app/routes/login.tsx:13-55 | no matching user gives a thrown 401 with no cookie; a match with all four token settings set redirects to "/" setting the access then the refresh cookie, both minted for the matched user's id; a match with any setting unset is exactly the uncaught error naming the first unset variable (access settings first) |
| `RegisterRoute.Action` | app/routes/register.tsx:14-64 | a taken username gives a thrown 409 and an unchanged table; otherwise exactly one row with the submitted fields is added and uniqueness is preserved; then with all token settings set it redirects to "/" setting both cookies for the new id, and with any unset it is exactly the uncaught error naming the first unset variable |
| `RegisterRoute.SecondRegistrationConflicts` | app/routes/register.tsx:34-53 | registering the same username again is refused with 409 and leaves the table alone |
| `LogoutRoute.Action` | app/routes/logout.ts:11-40 | an invalid refresh cookie redirects to "/" with no Set-Cookie and no change; a valid one sets `logout_at = now` on exactly the subject's rows and clears both cookies; a missing row makes the update throw; ids and usernames stay unique |
| `LogoutRoute.Loader` | app/routes/logout.ts:42-44 | GET always redirects to "/" without cookies |
| `LogoutRoute.IgnoresAccessCookie` | app/routes/logout.ts:17-19 | the access cookie is never consulted |
| `RoomIndexRoute.FilterChats` | app/routes/_room._index.tsx:61-70 | the roster never lists the user's own id; it keeps exactly the other users, and with a query exactly those whose lowercased name contains the lowercased query, each as many times as it occurs in `chats` |
| `RoomIndexRoute.Roster` | app/routes/_room._index.tsx:28-70 | with the room loader's profile, the roster filtered against its id; with `null`, reading the id throws exactly when the roster is non-empty |
| `RoomIndexRoute.VanishedUserBreaksRoster` | app/routes/_room.tsx:37-51 | a valid access cookie whose row is gone makes the room loader answer `null`, and the page then fails on any non-empty roster |
| `RoomIndexRoute.FilterChatsIsSubsequence` | app/routes/_room._index.tsx:63-69 | the roster is an order-preserving subsequence of `chats` |
| `RoomIndexRoute.SearchNarrowsRoster` | app/routes/_room._index.tsx:62-69 | a search result is the unsearched roster filtered by the query: never longer, nothing new |
| `RoomIndexRoute.EmptyQueryKeepsOthers` | app/routes/_room._index.tsx:69 | with no query and no own entry, the roster is all of `chats` in order |
| `RoomIndexRoute.ActiveChats` | app/routes/_room._index.tsx:119-153 | "not found" exactly when a non-empty query matches no other user; "no active users" exactly when there is no query and no other user; otherwise the non-empty roster |
| `RoomIndexRoute.ToastTitle` | app/routes/_room._index.tsx:47-48 | the name of the first entry whose id is the sender, absent exactly when no entry has it |
| `Text.Lower` | app/routes/_room._index.tsx:66 | same length; each character is lowercased, no ASCII capital remains |
| `Text.Includes` | app/routes/_room._index.tsx:66 | true exactly when the query occurs at some position of the name |
| `Scenarios.LoginThenIndexFastPath` | app/routes/login.tsx:46-54 | after a successful login, the next request within the access token's lifetime takes the index fast path |
| `Scenarios.RotationThenFastPath` | app/routes/_index.tsx:82-88 | after a rotation, the stored new access cookie makes the next request take the fast path |
| `Scenarios.LogoutRevokesEarlierRefresh` | app/routes/logout.ts:25-39 | after a logout at L, the subject's refresh tokens with `iat*1000 < L` are turned away by the index and room loaders, clearing both cookies |
| `Scenarios.LogoutInvisibleToRLayout` | app/routes/_r.tsx:41-67 | a logout never changes the `_r` loader's decision |
| `Scenarios.ReloginInLogoutSecondRevoked` | app/lib/utils.ts:8-10 | logging in again within the logout's second yields a refresh token the index loader already treats as revoked |
| `Scenarios.ReloginAfterLogoutSecondRotates` | app/routes/_index.tsx:67-88 | a login in a later second than the last logout yields a refresh token that rotates the access cookie |

## Left out

- Presence and message routing: the socket handler in `server.js:71-83` only logs connects and disconnects, so there is nothing to model.
- Express, Vite and socket.io plumbing in `server.js`, the React providers in `app/root.tsx` and `app/context.tsx`, type declarations, form markup, JSX rendering and the `ErrorBoundary` components: these are presentation or wiring.
- The load context built in `server.js:27-39` supplies no token functions to the loaders. The model assumes the loaders receive the `app/lib/jwt.ts` functions.
- `cn` in `app/lib/utils.ts`: a class-name helper over `clsx` and `tailwind-merge`.
- HMAC signing and cookie parsing and serialization: a token is abstract, and a cookie is either absent or carries a token.
- Jwt.Generate: lifetime strings such as "15m" are interpreted by an abstract `lifetime` function. An unparsable lifetime, which makes `sign` throw, is not modelled.
- RLayoutRoute.Loader: `_r.tsx` reads the claim field `id`, while the signers write `{ value }`. The model reads the subject as the claim's value. It therefore does not capture that, for tokens from these signers, `id` is undefined.
- RoomIndexRoute.FilterChats: takes the user's own id as a string, so it assumes the room loader answered a profile. With `null` data `filterChats` throws on a non-empty roster; `RoomIndexRoute.Roster` models that case.
- RoomIndexRoute.ActiveChats: also assumes a profile. With `null` data it throws through `filterChats`, as `RoomIndexRoute.Roster` shows.
- Text.Lower: only ASCII letters are lowercased. Full Unicode `toLowerCase` is not modelled.
- The ORM's asynchrony and concurrent requests. An example is a second registration racing between the username check and `create`.
- Missing form fields are not modelled: `username`, `password` and `full_name` are always strings.
- The database defaults of a new row are not modelled: its id is a parameter assumed fresh, `created_at` is now, `logout_at` is null and `logout` is false. The schema is not part of this model.
- The shape of `chats` is `{ chat_id, user_full_name }`, taken from its uses in `_room._index.tsx`. Its provider is not part of this model.
- `app/routes/_room.$chatId.tsx` is not part of this model.

=== FILE: client_cache.dfy ===
/** The browser-side memo in front of the index and room loaders: a module-level
    variable, initially `undefined`, that `clientLoader` fills with the first
    truthy answer of `serverLoader` and serves from then on. */
module ClientCache {
  import Jwt
  import Directory
  import opened Http
  import Session
  import IndexRoute
  import RoomRoute

  /** The cache variable: `undefined` until the first answer is stored. */
  datatype Cache = Undefined | Stored(body: Body)

  /** JavaScript truthiness of the cached value: `undefined` and `null` are falsy. */
  predicate Truthy(c: Cache) {
    c.Stored? && c.body != JsonNull
  }

  /** What awaiting `serverLoader()` gives: the loader's data, or a rejection
      (a thrown response, a redirect or an uncaught error). */
  datatype ServerAnswer = Loaded(body: Body) | Rejected

  /** The answer `serverLoader()` yields for a server loader outcome. */
  function ServerLoad(o: Outcome): (a: ServerAnswer)
    ensures a.Loaded? <==> o.Respond? && o.disposition == Returned && o.reply.Json?
    ensures a.Loaded? ==> a.body == o.reply.body
  {
    if o.Respond? && o.disposition == Returned && o.reply.Json? then Loaded(o.reply.body) else Rejected
  }

  /** One call of `clientLoader`: the new cache and the call's own answer. The server
      answer is consulted only while the cache is falsy, and a rejection stores
      nothing. */
  function ClientLoader(cache: Cache, server: ServerAnswer): (r: (Cache, ServerAnswer))
    ensures Truthy(cache) ==> r == (cache, Loaded(cache.body))
    ensures !Truthy(cache) && server.Rejected? ==> r == (cache, Rejected)
    ensures !Truthy(cache) && server.Loaded? ==> r == (Stored(server.body), server)
  {
    if !Truthy(cache) then
      match server
      case Rejected => (cache, Rejected)
      case Loaded(body) => (Stored(body), server)
    else (cache, Loaded(cache.body))
  }

  /** The cache after a series of calls, the `i`-th finding `answers[i]` on the
      server should it ask. */
  function Run(cache: Cache, answers: seq<ServerAnswer>): Cache
    decreases |answers|
  {
    if |answers| == 0 then cache else Run(ClientLoader(cache, answers[0]).0, answers[1..])
  }

  /** Once a truthy value is cached it is kept forever, whatever the server would
      answer later: logging out elsewhere does not refresh it. */
  lemma {:induction false} TruthyCacheSticks(cache: Cache, answers: seq<ServerAnswer>)
    requires Truthy(cache)
    ensures Run(cache, answers) == cache
    decreases |answers|
  {
    if |answers| > 0 {
      TruthyCacheSticks(cache, answers[1..]);
    }
  }

  /** While the server keeps rejecting, nothing is cached, so every later call
      tries the server again. */
  lemma {:induction false} RejectionsCacheNothing(cache: Cache, answers: seq<ServerAnswer>)
    requires !Truthy(cache)
    requires forall i :: 0 <= i < |answers| ==> answers[i].Rejected?
    ensures Run(cache, answers) == cache
    decreases |answers|
  {
    if |answers| > 0 {
      RejectionsCacheNothing(cache, answers[1..]);
    }
  }

  /** A silent rotation makes the index loader answer `null`, which is falsy: a
      falsy cache stays falsy, so the next call asks the server again. */
  lemma RotationAnswerNotCached(keys: Jwt.Keys, req: Request, table: Directory.Table, nowMs: nat, cache: Cache)
    requires !Truthy(cache)
    requires Session.RotationCase(keys, req, table, nowMs) && Session.CanMintAccess(keys)
    ensures ServerLoad(IndexRoute.Loader(keys, req, table, nowMs)) == Loaded(JsonNull)
    ensures !Truthy(ClientLoader(cache, ServerLoad(IndexRoute.Loader(keys, req, table, nowMs))).0)
  {
  }

  /** The index loader's fast-path answer `true` is cached on the first call and
      then served for good, whatever the server would answer later. */
  lemma FastPathAnswerCached(keys: Jwt.Keys, req: Request, table: Directory.Table, nowMs: nat, cache: Cache,
                             later: seq<ServerAnswer>)
    requires !Truthy(cache)
    requires Session.AccessClaim(keys, req, nowMs).Some?
    ensures Run(ClientLoader(cache, ServerLoad(IndexRoute.Loader(keys, req, table, nowMs))).0, later) == Stored(JsonTrue)
  {
    TruthyCacheSticks(Stored(JsonTrue), later);
  }

  /** The room loader returns, not throws, its 404 for a vanished user, so
      `serverLoader()` resolves to `null`: nothing truthy is cached and the next
      call asks the server again. */
  lemma RoomMissingUserNotCached(keys: Jwt.Keys, req: Request, table: Directory.Table, nowMs: nat, cache: Cache)
    requires !Truthy(cache)
    requires Session.MissingUserCase(keys, req, table, nowMs)
    ensures ServerLoad(RoomRoute.Loader(keys, req, table, nowMs)) == Loaded(JsonNull)
    ensures !Truthy(ClientLoader(cache, ServerLoad(RoomRoute.Loader(keys, req, table, nowMs))).0)
  {
  }
}

=== FILE: directory.dfy ===
/** The user table the routes read and write through the ORM. Rows are kept in
    insertion order; a lookup returns the first matching row. */
module Directory {
  import opened Wrappers
  import Seqs

  /** A row of the user table; times are milliseconds since the epoch. */
  datatype User = User(
    id: string,
    fullName: string,
    username: string,
    password: string,
    createdAt: int,
    logoutAt: Option<int>,
    logout: bool)

  type Table = seq<User>

  /** Ids and usernames are unique, as the table's keys require. */
  predicate WellFormed(t: Table) {
    forall i, j :: 0 <= i < j < |t| ==> t[i].id != t[j].id && t[i].username != t[j].username
  }

  /** The first row satisfying `p`: a `findUnique` on a column that is unique in
      a well-formed table. */
  function FindFirst(t: Table, p: User -> bool): (r: Option<User>)
    ensures r.Some? ==> r.value in t && p(r.value)
    ensures r.Some? ==> exists i :: 0 <= i < |t| && t[i] == r.value && forall j :: 0 <= j < i ==> !p(t[j])
    ensures r.None? <==> forall i :: 0 <= i < |t| ==> !p(t[i])
  {
    match Seqs.FirstIndex(t, p)
    case None => None
    case Some(i) => Some(t[i])
  }

  /** `findUnique({ where: { id } })`. */
  function FindById(t: Table, id: string): (r: Option<User>)
    ensures r.Some? ==> r.value in t && r.value.id == id
    ensures r.None? <==> forall i :: 0 <= i < |t| ==> t[i].id != id
  {
    FindFirst(t, (u: User) => u.id == id)
  }

  /** `findUnique({ where: { username } })`. */
  function FindByUsername(t: Table, username: string): (r: Option<User>)
    ensures r.Some? ==> r.value in t && r.value.username == username
    ensures r.None? <==> forall i :: 0 <= i < |t| ==> t[i].username != username
  {
    FindFirst(t, (u: User) => u.username == username)
  }

  /** `findUnique({ where: { username, password } })`: the row holding the unique
      username, provided its password also matches. */
  function FindByCredentials(t: Table, username: string, password: string): (r: Option<User>)
    ensures r.Some? ==> r.value in t && r.value.username == username && r.value.password == password
    ensures WellFormed(t) ==>
              (r.None? <==> forall i :: 0 <= i < |t| ==> t[i].username != username || t[i].password != password)
  {
    match FindByUsername(t, username)
    case None => None
    case Some(u) => if u.password == password then Some(u) else None
  }

  /** `update({ where: { id }, data: { logout_at: nowMs } })` applied to the rows
      with that id; every other row is left as it was. */
  function SetLogoutAt(t: Table, id: string, nowMs: int): (r: Table)
    ensures |r| == |t|
    ensures forall i :: 0 <= i < |t| && t[i].id == id ==> r[i] == t[i].(logoutAt := Some(nowMs))
    ensures forall i :: 0 <= i < |t| && t[i].id != id ==> r[i] == t[i]
  {
    seq(|t|, i requires 0 <= i < |t| => if t[i].id == id then t[i].(logoutAt := Some(nowMs)) else t[i])
  }

  /** After the update, the looked-up row for `id` is the old row with its logout
      time set; lookups of other ids see the table unchanged. */
  lemma FindAfterSetLogoutAt(t: Table, id: string, other: string, nowMs: int)
    ensures FindById(SetLogoutAt(t, id, nowMs), id)
            == (match FindById(t, id) case None => None case Some(u) => Some(u.(logoutAt := Some(nowMs))))
    ensures other != id ==> FindById(SetLogoutAt(t, id, nowMs), other) == FindById(t, other)
  {
    var t' := SetLogoutAt(t, id, nowMs);
    Seqs.FirstIndexSamePattern(t, (u: User) => u.id == id, t', (u: User) => u.id == id);
    Seqs.FirstIndexSamePattern(t, (u: User) => u.id == other, t', (u: User) => u.id == other);
  }

  /** Setting a logout time keeps ids and usernames, hence well-formedness. */
  lemma SetLogoutAtWellFormed(t: Table, id: string, nowMs: int)
    ensures WellFormed(t) ==> WellFormed(SetLogoutAt(t, id, nowMs))
  {
  }

  /** In a well-formed table, looking up a row's id finds that very row. */
  lemma FindByIdOfRow(t: Table, u: User)
    requires WellFormed(t) && u in t
    ensures FindById(t, u.id) == Some(u)
  {
    var k :| 0 <= k < |t| && t[k] == u;
    assert t[k].id == u.id;
  }
}

=== FILE: http.dfy ===
/** What a route handler hands back to the framework: a JSON response or a
    redirect, returned or thrown, with its `Set-Cookie` headers; or an uncaught
    error. Also the browser side of the two session cookies. */
module Http {
  import opened Wrappers
  import Jwt
  import Directory

  const AccessCookieName: string := "__access"
  const RefreshCookieName: string := "__refresh"

  /** One `Set-Cookie` header. Clearing serializes an empty value with `maxAge: 0`. */
  datatype CookieAction = SetAccess(token: Jwt.Token) | SetRefresh(token: Jwt.Token) | ClearAccess | ClearRefresh {

    function Name(): string {
      if SetAccess? || ClearAccess? then AccessCookieName else RefreshCookieName
    }

    /** What the named cookie holds after this header: the token it sets, or nothing. */
    function Stored(): Option<Jwt.Token> {
      if SetAccess? || SetRefresh? then Some(token) else None
    }
  }

  /** The two headers every rejection sends, access first. */
  const ClearBoth: seq<CookieAction> := [ClearAccess, ClearRefresh]

  /** The selected columns of a user row that a loader sends to the page; the
      `logout` column is selected by one loader only. */
  datatype Profile = Profile(id: string, fullName: string, createdAt: int, logoutAt: Option<int>, logout: Option<bool>)

  function SelectProfile(u: Directory.User): Profile {
    Profile(u.id, u.fullName, u.createdAt, u.logoutAt, None)
  }

  function SelectProfileWithLogout(u: Directory.User): Profile {
    Profile(u.id, u.fullName, u.createdAt, u.logoutAt, Some(u.logout))
  }

  datatype Body = JsonTrue | JsonNull | JsonProfile(profile: Profile)

  /** `redirect`, `redirectDocument` (full document reload) or `replace` (replaces
      the history entry); all three answer 302. */
  datatype RedirectMode = Plain | Document | Replace

  datatype Reply = Json(status: nat, statusText: string, body: Body) | Redirect(location: string, mode: RedirectMode) {
    function Status(): nat {
      if Json? then status else 302
    }
  }

  datatype Disposition = Returned | Thrown

  /** An error no handler catches. */
  datatype Fault = Misconfigured(error: Jwt.ConfigError) | RecordNotFound(id: string)

  datatype Outcome = Respond(disposition: Disposition, reply: Reply, cookies: seq<CookieAction>) | Crash(fault: Fault)

  /** An action's effect on the user table together with its outcome. */
  datatype Transition = Transition(table: Directory.Table, outcome: Outcome)

  /** The two session cookies as the request carries them, already parsed; a
      missing cookie is `None`. */
  datatype Request = Request(access: Option<Jwt.Token>, refresh: Option<Jwt.Token>)

  /** The browser applying the `Set-Cookie` headers of a response, in order. */
  function ApplyCookies(jar: Request, actions: seq<CookieAction>): (r: Request)
    ensures (forall i :: 0 <= i < |actions| ==> actions[i].Name() != AccessCookieName) ==> r.access == jar.access
    ensures (forall i :: 0 <= i < |actions| ==> actions[i].Name() != RefreshCookieName) ==> r.refresh == jar.refresh
    decreases |actions|
  {
    if |actions| == 0 then jar else ApplyCookies(Apply(jar, actions[0]), actions[1..])
  }

  /** The browser applying one `Set-Cookie` header. */
  function Apply(jar: Request, c: CookieAction): Request {
    match c
    case SetAccess(t) => jar.(access := Some(t))
    case SetRefresh(t) => jar.(refresh := Some(t))
    case ClearAccess => jar.(access := None)
    case ClearRefresh => jar.(refresh := None)
  }

  /** The cookie of that name in the jar. */
  function Held(jar: Request, name: string): Option<Jwt.Token> {
    if name == AccessCookieName then jar.access else jar.refresh
  }

  /** The last header naming a cookie decides it: a set stores its token, a clear
      removes the cookie, whatever came before. */
  lemma {:induction false} LastHeaderDecides(jar: Request, actions: seq<CookieAction>, i: nat)
    requires i < |actions|
    requires forall j :: i < j < |actions| ==> actions[j].Name() != actions[i].Name()
    ensures Held(ApplyCookies(jar, actions), actions[i].Name()) == actions[i].Stored()
    decreases |actions|
  {
    var rest := actions[1..];
    if i == 0 {
      assert forall j :: 0 <= j < |rest| ==> rest[j].Name() != actions[0].Name() by {
        forall j | 0 <= j < |rest| ensures rest[j].Name() != actions[0].Name() {
          assert rest[j] == actions[j + 1];
        }
      }
    } else {
      assert forall j :: i - 1 < j < |rest| ==> rest[j].Name() != rest[i - 1].Name() by {
        forall j | i - 1 < j < |rest| ensures rest[j].Name() != rest[i - 1].Name() {
          assert rest[j] == actions[j + 1];
        }
      }
      LastHeaderDecides(Apply(jar, actions[0]), rest, i - 1);
    }
  }

  /** After a rejection the browser holds no session cookie at all. */
  lemma ClearBothEmptiesJar(jar: Request)
    ensures ApplyCookies(jar, ClearBoth) == Request(None, None)
  {
  }
}

=== FILE: index_route.dfy ===
/** The loader of the index page. A valid access cookie answers `true` without
    touching the user table; otherwise a valid refresh cookie either rotates the
    access cookie or, for a missing or logged-out user, clears both cookies. */
module IndexRoute {
  import opened Wrappers
  import Jwt
  import Directory
  import opened Http
  import opened Session

  function Loader(keys: Jwt.Keys, req: Request, table: Directory.Table, nowMs: nat): (o: Outcome)
    // Fast path: the only answer without any Set-Cookie header.
    ensures AccessClaim(keys, req, nowMs).Some? <==> o == Respond(Returned, Json(200, "", JsonTrue), [])
    // Neither cookie verifies: a thrown 401 clearing both cookies.
    ensures AccessClaim(keys, req, nowMs).None? && RefreshClaim(keys, req, nowMs).None?
            <==> o == Respond(Thrown, Json(401, "", JsonNull), ClearBoth)
    // A refresh claim whose user is gone: a thrown 404 clearing both cookies.
    ensures MissingUserCase(keys, req, table, nowMs) <==> o == Respond(Thrown, Json(404, "", JsonNull), ClearBoth)
    // A refresh claim issued before the user's logout: a returned redirect to "/".
    ensures RevokedCase(keys, req, table, nowMs) <==> o.Respond? && o.reply.Redirect?
    ensures o.Respond? && o.reply.Redirect? ==> o == Respond(Returned, Redirect("/", Plain), ClearBoth)
    // Silent rotation: a live user's refresh claim yields one new access cookie for its subject.
    ensures RotationCase(keys, req, table, nowMs) && CanMintAccess(keys)
            ==> && o.Respond? && o.disposition == Returned && o.reply == Json(200, "", JsonNull)
                && Rotates(keys, o.cookies, RefreshSubject(keys, req, nowMs), nowMs)
    // Rotating with an access-token setting unset is the only uncaught error; the
    // getter of the first unset variable throws.
    ensures RotationCase(keys, req, table, nowMs) && !CanMintAccess(keys) <==> o.Crash?
    ensures o.Crash? ==> o == AccessMintCrash(keys)
    ensures KeepsRefresh(o)
  {
    match AccessClaim(keys, req, nowMs)
    case Some(_) => Respond(Returned, Json(200, "", JsonTrue), [])
    case None =>
      match RefreshClaim(keys, req, nowMs)
      case None => Respond(Thrown, Json(401, "", JsonNull), ClearBoth)
      case Some(claim) =>
        match Directory.FindById(table, claim.value)
        case None => Respond(Thrown, Json(404, "", JsonNull), ClearBoth)
        case Some(user) =>
          if Revoked(claim, user) then Respond(Returned, Redirect("/", Plain), ClearBoth)
          else match Jwt.Generate(keys, Jwt.Access, claim.value, nowMs)
            case Failure(e) => Crash(Misconfigured(e))
            case Success(token) => Respond(Returned, Json(200, "", JsonNull), [SetAccess(token)])
  }

  /** With a valid access cookie the answer depends neither on the refresh cookie
      nor on the user table: neither is consulted. */
  lemma FastPathIgnoresRefreshAndTable(keys: Jwt.Keys, req: Request, table: Directory.Table,
                                       refresh: Option<Jwt.Token>, table': Directory.Table, nowMs: nat)
    requires AccessClaim(keys, req, nowMs).Some?
    ensures Loader(keys, req.(refresh := refresh), table', nowMs) == Loader(keys, req, table, nowMs)
  {
  }
}

=== FILE: jwt.dfy ===
/** The token service: signing and verifying access and refresh tokens. The
    cryptography is abstracted away: a signed token records the secret it was
    signed with and its claim, and verification succeeds exactly when the
    verifier holds the same secret and the token has not expired. The two kinds
    of token differ only in which environment variables supply their secret and
    their lifetime. */
module Jwt {
  import opened Wrappers

  const SessionSecretName: string := "JWT_SESSION_SECRET"
  const SessionExpName: string := "JWT_SESSION_EXP"
  const RefreshSecretName: string := "JWT_REFRESH_SECRET"
  const RefreshExpName: string := "JWT_REFRESH_EXP"

  /** The process environment. */
  type Env = map<string, string>

  datatype Kind = Access | Refresh

  function SecretName(kind: Kind): string {
    match kind
    case Access => SessionSecretName
    case Refresh => RefreshSecretName
  }

  function ExpName(kind: Kind): string {
    match kind
    case Access => SessionExpName
    case Refresh => RefreshExpName
  }

  /** The error a configuration getter throws, naming the missing variable. */
  datatype ConfigError = Unset(name: string)

  /** The signed payload `{ value, iat, exp }`; `iat` and `exp` in whole seconds. */
  datatype Claim = Claim(value: string, iat: int, exp: int)

  /** What a cookie may carry: a token signed with some secret, or anything else. */
  datatype Token = Signed(secret: string, claim: Claim) | Malformed(text: string)

  /** The environment plus the interpretation of lifetime settings such as "15m"
      as a number of seconds. */
  datatype Keys = Keys(env: Env, lifetime: string -> nat)

  /** The variable is present and non-empty. */
  predicate IsSet(env: Env, name: string) {
    name in env && |env[name]| > 0
  }

  /** A configuration getter: the variable's value, or an error when it is
      missing or empty. */
  function Setting(env: Env, name: string): (r: Result<string, ConfigError>)
    ensures r.Success? <==> IsSet(env, name)
    ensures r.Success? ==> r.value == env[name] && |r.value| > 0
    ensures r.Failure? ==> r.error == Unset(name)
  {
    if name !in env || |env[name]| == 0 then Failure(Unset(name)) else Success(env[name])
  }

  /** Both settings a `kind` token needs are set, so minting one succeeds. */
  predicate CanMint(env: Env, kind: Kind) {
    IsSet(env, SecretName(kind)) && IsSet(env, ExpName(kind))
  }

  /** The variable whose getter fails first when minting a `kind` token: the
      secret is read before the lifetime. */
  function FirstUnset(env: Env, kind: Kind): string {
    if !IsSet(env, SecretName(kind)) then SecretName(kind) else ExpName(kind)
  }

  /** An access token and then a refresh token can both be minted. */
  predicate CanMintBoth(env: Env) {
    CanMint(env, Access) && CanMint(env, Refresh)
  }

  /** The variable whose getter fails first when minting an access token and then
      a refresh token. */
  function FirstUnsetOfBoth(env: Env): string {
    if !CanMint(env, Access) then FirstUnset(env, Access) else FirstUnset(env, Refresh)
  }

  /** `generateAccessToken(value)` / `generateRefreshToken(value)` at `nowMs`:
      the secret getter runs before the lifetime getter. */
  function Generate(keys: Keys, kind: Kind, value: string, nowMs: nat): (r: Result<Token, ConfigError>)
    ensures r.Failure? <==> !CanMint(keys.env, kind)
    ensures r.Failure? ==> r.error == Unset(FirstUnset(keys.env, kind))
    ensures !IsSet(keys.env, SecretName(kind)) ==> r == Failure(Unset(SecretName(kind)))
    ensures IsSet(keys.env, SecretName(kind)) && !IsSet(keys.env, ExpName(kind)) ==> r == Failure(Unset(ExpName(kind)))
    ensures r.Success? ==> Minted(keys, kind, r.value, value, nowMs)
  {
    var secret :- Setting(keys.env, SecretName(kind));
    var ttl :- Setting(keys.env, ExpName(kind));
    var iat := nowMs / 1000;
    Success(Signed(secret, Claim(value, iat, iat + keys.lifetime(ttl))))
  }

  /** `token` is what signing `value` as a `kind` token at `nowMs` produces: signed
      with the kind's secret, issued in the current whole second, expiring after
      the configured lifetime. */
  ghost predicate Minted(keys: Keys, kind: Kind, token: Token, value: string, nowMs: nat) {
    && IsSet(keys.env, SecretName(kind))
    && IsSet(keys.env, ExpName(kind))
    && token.Signed?
    && token.secret == keys.env[SecretName(kind)]
    && token.claim.value == value
    && token.claim.iat * 1000 <= nowMs < token.claim.iat * 1000 + 1000
    && token.claim.exp == token.claim.iat + keys.lifetime(keys.env[ExpName(kind)])
  }

  /** `verifyAccessToken(token)` / `verifyRefreshToken(token)` at `nowMs`: the claim,
      or `None` for every failure, a missing secret included. */
  function Verify(env: Env, kind: Kind, token: Option<Token>, nowMs: nat): (r: Option<Claim>)
    ensures r.Some? <==> IsSet(env, SecretName(kind)) && token.Some? && token.value.Signed?
                         && token.value.secret == env[SecretName(kind)] && nowMs / 1000 < token.value.claim.exp
    ensures r.Some? ==> r.value == token.value.claim
  {
    match Setting(env, SecretName(kind))
    case Failure(_) => None
    case Success(secret) =>
      if token.Some? && token.value.Signed? && token.value.secret == secret
         && nowMs / 1000 < token.value.claim.exp
      then Some(token.value.claim)
      else None
  }

  /** Round trip: a freshly generated token verifies, before it expires, to a claim
      carrying the value it was generated for. */
  lemma RoundTrip(keys: Keys, kind: Kind, value: string, issuedMs: nat, nowMs: nat)
    requires Generate(keys, kind, value, issuedMs).Success?
    requires nowMs / 1000 < Generate(keys, kind, value, issuedMs).value.claim.exp
    ensures Verify(keys.env, kind, Some(Generate(keys, kind, value, issuedMs).value), nowMs)
            == Some(Claim(value, issuedMs / 1000, Generate(keys, kind, value, issuedMs).value.claim.exp))
  {
  }

  /** A token verifies only within its lifetime: from its expiry second on, it is
      rejected. */
  lemma ExpiredRejected(env: Env, kind: Kind, token: Token, nowMs: nat)
    requires token.Signed? && token.claim.exp <= nowMs / 1000
    ensures Verify(env, kind, Some(token), nowMs) == None
  {
  }

  /** An access token passes refresh verification exactly when the refresh secret is
      set and equal to the access secret (and the token has not expired). */
  lemma CrossKind(keys: Keys, value: string, issuedMs: nat, nowMs: nat)
    requires Generate(keys, Access, value, issuedMs).Success?
    requires nowMs / 1000 < Generate(keys, Access, value, issuedMs).value.claim.exp
    ensures Verify(keys.env, Refresh, Some(Generate(keys, Access, value, issuedMs).value), nowMs).Some?
            <==> IsSet(keys.env, RefreshSecretName) && keys.env[RefreshSecretName] == keys.env[SessionSecretName]
  {
  }

  /** Verification reads only the secret: the lifetime settings do not affect it. */
  lemma VerifyIgnoresLifetime(env: Env, kind: Kind, token: Option<Token>, nowMs: nat, ttl: string)
    ensures Verify(env[ExpName(kind) := ttl], kind, token, nowMs) == Verify(env, kind, token, nowMs)
  {
  }
}

=== FILE: login_route.dfy ===
/** The login action: checks the submitted username and password against the user
    table and, on a match, issues an access and a refresh token for that user. The
    table is only read. */
module LoginRoute {
  import opened Wrappers
  import Jwt
  import Directory
  import opened Http

  const Rejection: string := "harap periksa kembali username dan password"

  /** The credentials match no user: a thrown 401, no token minted. */
  const Unauthorized: Outcome := Respond(Thrown, Json(401, Rejection, JsonNull), [])

  function Action(keys: Jwt.Keys, table: Directory.Table, username: string, password: string, nowMs: nat): (o: Outcome)
    ensures Directory.FindByCredentials(table, username, password).None? <==> o == Unauthorized
    // Success: a redirect to "/" setting the access cookie, then the refresh cookie,
    // both minted now for the matched user's id.
    ensures o.Respond? && o.disposition == Returned ==>
              && o.reply == Redirect("/", Plain)
              && |o.cookies| == 2 && o.cookies[0].SetAccess? && o.cookies[1].SetRefresh?
              && Directory.FindByCredentials(table, username, password).Some?
              && var user := Directory.FindByCredentials(table, username, password).value;
                 && user.username == username && user.password == password
                 && Jwt.Minted(keys, Jwt.Access, o.cookies[0].token, user.id, nowMs)
                 && Jwt.Minted(keys, Jwt.Refresh, o.cookies[1].token, user.id, nowMs)
    // A matched user with a token setting unset: an uncaught error from the getter
    // of the first unset variable, the access token's settings read first.
    ensures Directory.FindByCredentials(table, username, password).Some? && !Jwt.CanMintBoth(keys.env) <==> o.Crash?
    ensures o.Crash? ==> o == Crash(Misconfigured(Jwt.Unset(Jwt.FirstUnsetOfBoth(keys.env))))
    ensures Directory.FindByCredentials(table, username, password).Some? && Jwt.CanMintBoth(keys.env)
            ==> o.Respond? && o.disposition == Returned
  {
    match Directory.FindByCredentials(table, username, password)
    case None => Unauthorized
    case Some(user) =>
      match Jwt.Generate(keys, Jwt.Access, user.id, nowMs)
      case Failure(e) => Crash(Misconfigured(e))
      case Success(access) =>
        match Jwt.Generate(keys, Jwt.Refresh, user.id, nowMs)
        case Failure(e) => Crash(Misconfigured(e))
        case Success(refresh) =>
          Respond(Returned, Redirect("/", Plain), [SetAccess(access), SetRefresh(refresh)])
  }
}

=== FILE: logout_route.dfy ===
/** Logging out: the action records the current time as the user's `logout_at`,
    which revokes every refresh token issued earlier, and clears both cookies. Only
    the refresh cookie is read. */
module LogoutRoute {
  import opened Wrappers
  import Jwt
  import Directory
  import opened Http

  const Home: Outcome := Respond(Returned, Redirect("/", Plain), [])

  function Action(keys: Jwt.Keys, req: Request, table: Directory.Table, nowMs: nat): (r: Transition)
    // An invalid refresh cookie: redirect home, no Set-Cookie, no change.
    ensures Jwt.Verify(keys.env, Jwt.Refresh, req.refresh, nowMs).None? <==> r == Transition(table, Home)
    // A valid one: exactly that subject's rows get `logout_at = nowMs`, then both cookies are cleared.
    ensures Jwt.Verify(keys.env, Jwt.Refresh, req.refresh, nowMs).Some? ==>
              var subject := Jwt.Verify(keys.env, Jwt.Refresh, req.refresh, nowMs).value.value;
              if Directory.FindById(table, subject).Some? then
                && r.outcome == Respond(Returned, Redirect("/", Plain), ClearBoth)
                && |r.table| == |table|
                && (forall i :: 0 <= i < |table| && table[i].id == subject ==> r.table[i] == table[i].(logoutAt := Some(nowMs)))
                && (forall i :: 0 <= i < |table| && table[i].id != subject ==> r.table[i] == table[i])
              else
                // Updating a missing row throws.
                r == Transition(table, Crash(RecordNotFound(subject)))
    // Only `logout_at` changes, so ids and usernames stay unique.
    ensures Directory.WellFormed(table) ==> Directory.WellFormed(r.table)
  {
    match Jwt.Verify(keys.env, Jwt.Refresh, req.refresh, nowMs)
    case None => Transition(table, Home)
    case Some(claim) =>
      if Directory.FindById(table, claim.value).None? then Transition(table, Crash(RecordNotFound(claim.value)))
      else
        Directory.SetLogoutAtWellFormed(table, claim.value, nowMs);
        Transition(Directory.SetLogoutAt(table, claim.value, nowMs),
                   Respond(Returned, Redirect("/", Plain), ClearBoth))
  }

  /** GET /logout: always a redirect home, with no other effect. */
  function Loader(): (o: Outcome)
    ensures o == Respond(Returned, Redirect("/", Plain), [])
  {
    Home
  }

  /** The access cookie is never consulted. */
  lemma IgnoresAccessCookie(keys: Jwt.Keys, req: Request, access: Option<Jwt.Token>, table: Directory.Table, nowMs: nat)
    ensures Action(keys, req.(access := access), table, nowMs) == Action(keys, req, table, nowMs)
  {
  }
}

=== FILE: r_layout_route.dfy ===
/** The loader of the `_r` layout. It verifies both cookies up front, gives the
    access cookie priority, looks the user up on both paths, and rejects a missing
    user or one whose boolean `logout` flag is set, by throwing a `replace` to
    "/login". It never compares token issue times with `logout_at`. */
module RLayoutRoute {
  import opened Wrappers
  import Jwt
  import Directory
  import opened Http
  import opened Session

  /** The looked-up user exists and is not flagged as logged out. */
  predicate Live(u: Option<Directory.User>) {
    u.Some? && !u.value.logout
  }

  const ToLogin: Outcome := Respond(Thrown, Redirect("/login", Replace), ClearBoth)

  /** The user behind the valid access cookie, when there is one. */
  function AccessUser(keys: Jwt.Keys, req: Request, table: Directory.Table, nowMs: nat): Option<Directory.User>
    requires AccessClaim(keys, req, nowMs).Some?
  {
    Directory.FindById(table, AccessClaim(keys, req, nowMs).value.value)
  }

  /** A valid access cookie names a live user. */
  predicate LiveByAccess(keys: Jwt.Keys, req: Request, table: Directory.Table, nowMs: nat) {
    AccessClaim(keys, req, nowMs).Some? && Live(AccessUser(keys, req, table, nowMs))
  }

  /** On the refresh path, and the refresh claim names a live user. */
  predicate LiveByRefresh(keys: Jwt.Keys, req: Request, table: Directory.Table, nowMs: nat) {
    OnRefreshPath(keys, req, nowMs) && Live(RefreshUser(keys, req, table, nowMs))
  }

  function Loader(keys: Jwt.Keys, req: Request, table: Directory.Table, nowMs: nat): (o: Outcome)
    // A live user behind a valid access cookie: the profile, with no Set-Cookie.
    ensures LiveByAccess(keys, req, table, nowMs) <==> o.Respond? && o.cookies == []
    ensures LiveByAccess(keys, req, table, nowMs)
            ==> o == Respond(Returned, Json(200, "", JsonProfile(SelectProfileWithLogout(AccessUser(keys, req, table, nowMs).value))), [])
    // The verified cookie with priority names a missing or logged-out user.
    ensures o == ToLogin
            <==> (|| (AccessClaim(keys, req, nowMs).Some? && !Live(AccessUser(keys, req, table, nowMs)))
                  || (OnRefreshPath(keys, req, nowMs) && !Live(RefreshUser(keys, req, table, nowMs))))
    // Neither cookie verifies: a returned redirect to "/login" clearing both cookies.
    ensures AccessClaim(keys, req, nowMs).None? && RefreshClaim(keys, req, nowMs).None?
            <==> o == Respond(Returned, Redirect("/login", Plain), ClearBoth)
    // Refresh path with a live user: the profile plus a new access cookie.
    ensures LiveByRefresh(keys, req, table, nowMs) && CanMintAccess(keys)
            ==> && o.Respond? && o.disposition == Returned
                && o.reply == Json(200, "", JsonProfile(SelectProfileWithLogout(RefreshUser(keys, req, table, nowMs).value)))
                && Rotates(keys, o.cookies, RefreshSubject(keys, req, nowMs), nowMs)
    // Rotating with an access-token setting unset is the only uncaught error.
    ensures LiveByRefresh(keys, req, table, nowMs) && !CanMintAccess(keys) <==> o.Crash?
    ensures o.Crash? ==> o == AccessMintCrash(keys)
    ensures KeepsRefresh(o)
  {
    var acp := AccessClaim(keys, req, nowMs);
    var rcp := RefreshClaim(keys, req, nowMs);
    if acp.Some? then
      var user := Directory.FindById(table, acp.value.value);
      if !Live(user) then ToLogin
      else Respond(Returned, Json(200, "", JsonProfile(SelectProfileWithLogout(user.value))), [])
    else if rcp.Some? then
      var user := Directory.FindById(table, rcp.value.value);
      if !Live(user) then ToLogin
      else match Jwt.Generate(keys, Jwt.Access, rcp.value.value, nowMs)
        case Failure(e) => Crash(Misconfigured(e))
        case Success(token) =>
          Respond(Returned, Json(200, "", JsonProfile(SelectProfileWithLogout(user.value))), [SetAccess(token)])
    else Respond(Returned, Redirect("/login", Plain), ClearBoth)
  }

  /** Two bodies that differ at most in the `logout_at` field of the profile. */
  predicate SameBodyButLogoutAt(a: Body, b: Body) {
    if a.JsonProfile? && b.JsonProfile? then a.profile.(logoutAt := b.profile.logoutAt) == b.profile
    else a == b
  }

  /** Two outcomes that differ at most in the `logout_at` field of the profile they carry. */
  predicate SameDecision(a: Outcome, b: Outcome) {
    if a.Crash? || b.Crash? then a == b
    else
      && a.disposition == b.disposition
      && a.cookies == b.cookies
      && a.reply.Status() == b.reply.Status()
      && (a.reply.Redirect? || b.reply.Redirect? ==> a.reply == b.reply)
      && (a.reply.Json? && b.reply.Json? ==> SameBodyButLogoutAt(a.reply.body, b.reply.body))
  }

  /** Recording a logout time changes nothing about this loader's decision: only
      the `logout_at` field of the answered profile can differ. */
  lemma LogoutTimeIgnored(keys: Jwt.Keys, req: Request, table: Directory.Table, id: string, logoutAtMs: int, nowMs: nat)
    ensures SameDecision(Loader(keys, req, Directory.SetLogoutAt(table, id, logoutAtMs), nowMs),
                         Loader(keys, req, table, nowMs))
  {
    var a := AccessClaim(keys, req, nowMs);
    var r := RefreshClaim(keys, req, nowMs);
    if a.Some? {
      Directory.FindAfterSetLogoutAt(table, id, a.value.value, logoutAtMs);
    } else if r.Some? {
      Directory.FindAfterSetLogoutAt(table, id, r.value.value, logoutAtMs);
    }
  }
}

=== FILE: register_route.dfy ===
/** The registration action: refuses a username already in use, otherwise creates
    the user and issues an access and a refresh token for the new id. The new row's
    id is generated by the database and arrives here as a parameter. */
module RegisterRoute {
  import opened Wrappers
  import Jwt
  import Directory
  import opened Http

  const Conflict: string := "username sudah di gunakan"

  /** The username is taken: a thrown 409. */
  const Taken: Outcome := Respond(Thrown, Json(409, Conflict, JsonNull), [])

  /** The row `create` inserts: created now, never logged out. */
  function NewUser(id: string, fullName: string, username: string, password: string, nowMs: nat): Directory.User {
    Directory.User(id, fullName, username, password, nowMs, None, false)
  }

  /** The database generates an id no row has. */
  predicate FreshId(table: Directory.Table, id: string) {
    forall i :: 0 <= i < |table| ==> table[i].id != id
  }

  function Action(keys: Jwt.Keys, table: Directory.Table, fullName: string, username: string, password: string,
                  newId: string, nowMs: nat): (r: Transition)
    requires FreshId(table, newId)
    // A taken username: 409 and the table unchanged.
    ensures Directory.FindByUsername(table, username).Some? <==> r.outcome == Taken
    ensures Directory.FindByUsername(table, username).Some? ==> r.table == table
    // Otherwise exactly one row is added, carrying the submitted fields, even when
    // minting the tokens afterwards fails.
    ensures Directory.FindByUsername(table, username).None?
            ==> r.table == table + [NewUser(newId, fullName, username, password, nowMs)]
    ensures Directory.WellFormed(table) ==> Directory.WellFormed(r.table)
    // Success: a redirect to "/" setting both cookies for the new id.
    ensures r.outcome.Respond? && r.outcome.disposition == Returned ==>
              && r.outcome.reply == Redirect("/", Plain)
              && |r.outcome.cookies| == 2
              && r.outcome.cookies[0].SetAccess? && r.outcome.cookies[1].SetRefresh?
              && Jwt.Minted(keys, Jwt.Access, r.outcome.cookies[0].token, newId, nowMs)
              && Jwt.Minted(keys, Jwt.Refresh, r.outcome.cookies[1].token, newId, nowMs)
    ensures Directory.FindByUsername(table, username).None? && Jwt.CanMintBoth(keys.env)
            ==> r.outcome.Respond? && r.outcome.disposition == Returned
    // A new user with a token setting unset: the row is created, then the getter of
    // the first unset variable throws.
    ensures Directory.FindByUsername(table, username).None? && !Jwt.CanMintBoth(keys.env) <==> r.outcome.Crash?
    ensures r.outcome.Crash? ==> r.outcome == Crash(Misconfigured(Jwt.Unset(Jwt.FirstUnsetOfBoth(keys.env))))
  {
    if Directory.FindByUsername(table, username).Some? then Transition(table, Taken)
    else
      var created := NewUser(newId, fullName, username, password, nowMs);
      var table' := table + [created];
      match Jwt.Generate(keys, Jwt.Access, created.id, nowMs)
      case Failure(e) => Transition(table', Crash(Misconfigured(e)))
      case Success(access) =>
        match Jwt.Generate(keys, Jwt.Refresh, created.id, nowMs)
        case Failure(e) => Transition(table', Crash(Misconfigured(e)))
        case Success(refresh) =>
          Transition(table', Respond(Returned, Redirect("/", Plain), [SetAccess(access), SetRefresh(refresh)]))
  }

  /** Registering the same username twice: whatever the first attempt did, the
      second one is refused with 409 and leaves the table alone. */
  lemma SecondRegistrationConflicts(keys: Jwt.Keys, table: Directory.Table, fullName: string, username: string,
                                    password: string, id1: string, id2: string, fullName2: string, password2: string,
                                    t1: nat, t2: nat)
    requires FreshId(table, id1)
    requires FreshId(Action(keys, table, fullName, username, password, id1, t1).table, id2)
    ensures var table1 := Action(keys, table, fullName, username, password, id1, t1).table;
            var second := Action(keys, table1, fullName2, username, password2, id2, t2);
            second.outcome == Taken && second.table == table1
  {
    var table1 := Action(keys, table, fullName, username, password, id1, t1).table;
    if Directory.FindByUsername(table, username).None? {
      assert table1[|table|].username == username;
    }
  }
}

=== FILE: revocation.dfy ===
/** The logout-based revocation test for refresh tokens. Token issue times (`iat`)
    are whole seconds since the epoch; logout times are milliseconds since the epoch.
    Despite its name, a `true` answer is read by every caller as "revoked": the
    refresh token was issued before the user's last logout. The test reads no
    clock: its answer depends on its two arguments only. */
module Revocation {

  /** `refreshIat * 1000 < logoutAt`. Equivalently, `refreshIat` is before the
      logout instant rounded up to a whole second: the token's second began before
      the logout. */
  function IsRefreshTokenAccessable(refreshIat: int, logoutAtMs: int): (revoked: bool)
    ensures revoked <==> refreshIat < CeilSeconds(logoutAtMs)
  {
    CeilSecondsBound(logoutAtMs);
    refreshIat * 1000 < logoutAtMs
  }

  /** The logout instant rounded up to a whole second. */
  function CeilSeconds(ms: int): int {
    (ms + 999) / 1000
  }

  /** `CeilSeconds(ms)` is the least whole second `k` with `k * 1000 >= ms`. */
  lemma CeilSecondsBound(ms: int)
    ensures CeilSeconds(ms) * 1000 >= ms
    ensures (CeilSeconds(ms) - 1) * 1000 < ms
  {
    var c := CeilSeconds(ms);
    var r := (ms + 999) % 1000;
    assert ms + 999 == c * 1000 + r && 0 <= r < 1000;
  }

  /** At the boundary `iat * 1000 == logoutAt` the token is not revoked. */
  lemma BoundaryNotRevoked(refreshIat: int)
    ensures !IsRefreshTokenAccessable(refreshIat, refreshIat * 1000)
  {
  }

  /** Revocation is monotone: an earlier token or a later logout is revoked too. */
  lemma RevocationMonotone(iat: int, earlierIat: int, logoutAtMs: int, laterLogoutAtMs: int)
    requires earlierIat <= iat && logoutAtMs <= laterLogoutAtMs
    requires IsRefreshTokenAccessable(iat, logoutAtMs)
    ensures IsRefreshTokenAccessable(earlierIat, laterLogoutAtMs)
  {
  }

  /** A token issued at or after the logout, but within the same wall-clock second
      (whose `iat` is therefore floored to that second), is still reported revoked
      unless the logout fell exactly on a whole second. */
  lemma SameSecondIssueRevoked(issuedMs: int, logoutAtMs: int)
    requires logoutAtMs <= issuedMs
    requires issuedMs / 1000 == logoutAtMs / 1000
    requires logoutAtMs % 1000 != 0
    ensures IsRefreshTokenAccessable(issuedMs / 1000, logoutAtMs)
  {
    assert logoutAtMs == (logoutAtMs / 1000) * 1000 + logoutAtMs % 1000;
  }

  /** A token issued in a later whole second than the logout is never revoked. */
  lemma LaterSecondNotRevoked(issuedMs: int, logoutAtMs: int)
    requires logoutAtMs / 1000 < issuedMs / 1000
    ensures !IsRefreshTokenAccessable(issuedMs / 1000, logoutAtMs)
  {
    assert logoutAtMs == (logoutAtMs / 1000) * 1000 + logoutAtMs % 1000;
  }
}

=== FILE: room_index_route.dfy ===
/** The room's start page: the searchable roster of active chats, the choice of
    what to show when it is empty, and the title of an incoming-message toast. The
    signed-in user's own entry is never listed. */
module RoomIndexRoute {
  import opened Wrappers
  import Seqs
  import Text
  import Jwt
  import Directory
  import opened Http
  import Session
  import RoomRoute

  /** A roster entry: the peer's id and display name. */
  datatype Chat = Chat(chatId: string, userFullName: string)

  /** The entry belongs to someone other than the signed-in user. */
  predicate NotSelf(selfId: string, c: Chat) {
    c.chatId != selfId
  }

  /** The entry's name contains the query, both lowercased. */
  predicate Matches(query: string, c: Chat) {
    Text.Includes(Text.Lower(c.userFullName), Text.Lower(query))
  }

  /** `filterChats()`: with a non-empty query, the other users whose name matches;
      with an empty one, all other users. */
  function FilterChats(chats: seq<Chat>, selfId: string, query: string): (r: seq<Chat>)
    ensures forall i :: 0 <= i < |r| ==> r[i] in chats && NotSelf(selfId, r[i])
    ensures forall i :: 0 <= i < |r| ==> |query| == 0 || Matches(query, r[i])
    ensures forall j :: 0 <= j < |chats| && NotSelf(selfId, chats[j]) && (|query| == 0 || Matches(query, chats[j]))
                        ==> chats[j] in r
    // Every listed entry is listed as often as it occurs in `chats`.
    ensures forall c :: c in chats ==>
              multiset(r)[c] == if NotSelf(selfId, c) && (|query| == 0 || Matches(query, c)) then multiset(chats)[c] else 0
  {
    if |query| > 0 then Seqs.Filter(chats, (c: Chat) => NotSelf(selfId, c) && Matches(query, c))
    else Seqs.Filter(chats, (c: Chat) => NotSelf(selfId, c))
  }

  /** `filterChats()` as the page runs it: the user's own id is read from the room
      loader's data, a profile or `null` (`None`). Reading `.id` of `null` throws as
      soon as the filter visits an entry, so only an empty roster survives it. */
  function Roster(chats: seq<Chat>, data: Option<Profile>, query: string): (r: Option<seq<Chat>>)
    ensures r.None? <==> data.None? && |chats| > 0
    ensures data.Some? ==> r == Some(FilterChats(chats, data.value.id, query))
    ensures data.None? && |chats| == 0 ==> r == Some([])
  {
    match data
    case Some(profile) => Some(FilterChats(chats, profile.id, query))
    case None => if |chats| == 0 then Some([]) else None
  }

  /** The room loader's data as the page sees it. */
  function LoaderData(b: Body): Option<Profile> {
    if b.JsonProfile? then Some(b.profile) else None
  }

  /** A valid access cookie whose user row is gone makes the room loader answer
      `null`, and the page then fails on any non-empty roster. */
  lemma VanishedUserBreaksRoster(keys: Jwt.Keys, req: Request, table: Directory.Table, nowMs: nat,
                                 chats: seq<Chat>, query: string)
    requires Session.AccessClaim(keys, req, nowMs).Some?
    requires Directory.FindById(table, Session.AccessClaim(keys, req, nowMs).value.value).None?
    requires |chats| > 0
    ensures RoomRoute.Loader(keys, req, table, nowMs).reply.body == JsonNull
    ensures Roster(chats, LoaderData(RoomRoute.Loader(keys, req, table, nowMs).reply.body), query) == None
  {
  }

  /** The roster keeps the order of `chats`: it is a subsequence of it. */
  lemma FilterChatsIsSubsequence(chats: seq<Chat>, selfId: string, query: string)
    ensures Seqs.IsSubsequence(FilterChats(chats, selfId, query), chats)
  {
    if |query| > 0 {
      Seqs.FilterIsSubsequence(chats, (c: Chat) => NotSelf(selfId, c) && Matches(query, c));
    } else {
      Seqs.FilterIsSubsequence(chats, (c: Chat) => NotSelf(selfId, c));
    }
  }

  /** A search narrows the unsearched roster: its result is that roster filtered by
      the query, so it is never longer and lists nothing new. */
  lemma SearchNarrowsRoster(chats: seq<Chat>, selfId: string, query: string)
    ensures |query| > 0 ==>
              FilterChats(chats, selfId, query)
              == Seqs.Filter(FilterChats(chats, selfId, ""), (c: Chat) => NotSelf(selfId, c) && Matches(query, c))
    ensures |FilterChats(chats, selfId, query)| <= |FilterChats(chats, selfId, "")|
    ensures forall i :: 0 <= i < |FilterChats(chats, selfId, query)|
                        ==> FilterChats(chats, selfId, query)[i] in FilterChats(chats, selfId, "")
  {
    if |query| > 0 {
      Seqs.FilterNarrowing(chats, (c: Chat) => NotSelf(selfId, c) && Matches(query, c), (c: Chat) => NotSelf(selfId, c));
    }
  }

  /** Without a query and with no entry of the user's own, the roster is `chats`. */
  lemma EmptyQueryKeepsOthers(chats: seq<Chat>, selfId: string)
    requires forall j :: 0 <= j < |chats| ==> NotSelf(selfId, chats[j])
    ensures FilterChats(chats, selfId, "") == chats
  {
    Seqs.FilterAll(chats, (c: Chat) => NotSelf(selfId, c));
  }

  /** What `ActiveChats` renders. */
  datatype Panel = NoSearchResults | NoActiveUsers | ChatList(entries: seq<Chat>)

  function ActiveChats(chats: seq<Chat>, selfId: string, query: string): (p: Panel)
    // A search that matches no other user, including when nobody else is online.
    ensures p.NoSearchResults?
            <==> |query| > 0 && forall j :: 0 <= j < |chats| && NotSelf(selfId, chats[j]) ==> !Matches(query, chats[j])
    // No search, and nobody but the user is online.
    ensures p.NoActiveUsers?
            <==> |query| == 0 && forall j :: 0 <= j < |chats| ==> !NotSelf(selfId, chats[j])
    ensures p.ChatList? ==> p.entries == FilterChats(chats, selfId, query) && |p.entries| > 0
  {
    var shown := FilterChats(chats, selfId, query);
    if |shown| == 0 && |query| > 0 then NoSearchResults
    else if |shown| == 0 then NoActiveUsers
    else
      assert shown[0] in chats && NotSelf(selfId, shown[0]) && (|query| == 0 || Matches(query, shown[0]));
      ChatList(shown)
  }

  /** The toast title for a message from `from`: the name of the first roster entry
      with that id (the user's own entry included), absent if there is none. */
  function ToastTitle(chats: seq<Chat>, from: string): (title: Option<string>)
    ensures title.None? <==> forall j :: 0 <= j < |chats| ==> chats[j].chatId != from
    ensures title.Some? ==>
              exists i :: && 0 <= i < |chats| && chats[i].chatId == from && chats[i].userFullName == title.value
                          && forall j :: 0 <= j < i ==> chats[j].chatId != from
  {
    match Seqs.FirstIndex(chats, (c: Chat) => c.chatId == from)
    case None => None
    case Some(i) => Some(chats[i].userFullName)
  }
}

=== FILE: room_route.dfy ===
/** The loader of the room layout. Unlike the index loader it answers the user's
    profile, looks the user up even on the access-cookie path (where a missing user
    is answered as `null`, not as 404), returns rather than throws the 404, and
    sends a revoked session through a full document reload. */
module RoomRoute {
  import opened Wrappers
  import Jwt
  import Directory
  import opened Http
  import opened Session

  /** The selected profile of the looked-up user, or `null`. */
  function ProfileOrNull(u: Option<Directory.User>): Body {
    match u
    case None => JsonNull
    case Some(user) => JsonProfile(SelectProfile(user))
  }

  function Loader(keys: Jwt.Keys, req: Request, table: Directory.Table, nowMs: nat): (o: Outcome)
    // Access path: the looked-up profile (possibly null), always 200, no Set-Cookie.
    ensures AccessClaim(keys, req, nowMs).Some?
            <==> o.Respond? && o.cookies == []
    ensures AccessClaim(keys, req, nowMs).Some?
            ==> o == Respond(Returned, Json(200, "", ProfileOrNull(Directory.FindById(table, AccessClaim(keys, req, nowMs).value.value))), [])
    // Neither cookie verifies: a thrown 401 clearing both cookies.
    ensures AccessClaim(keys, req, nowMs).None? && RefreshClaim(keys, req, nowMs).None?
            <==> o == Respond(Thrown, Json(401, "", JsonNull), ClearBoth)
    // A refresh claim whose user is gone: a returned, not thrown, 404.
    ensures MissingUserCase(keys, req, table, nowMs) <==> o == Respond(Returned, Json(404, "", JsonNull), ClearBoth)
    ensures o.Respond? && o.reply.Status() == 404 ==> o.disposition == Returned
    // A revoked refresh claim: redirectDocument("/") clearing both cookies.
    ensures RevokedCase(keys, req, table, nowMs) <==> o.Respond? && o.reply.Redirect?
    ensures o.Respond? && o.reply.Redirect? ==> o == Respond(Returned, Redirect("/", Document), ClearBoth)
    // Silent rotation answers the user's profile together with the new access cookie.
    ensures RotationCase(keys, req, table, nowMs) && CanMintAccess(keys)
            ==> && o.Respond? && o.disposition == Returned
                && o.reply == Json(200, "", JsonProfile(SelectProfile(RefreshUser(keys, req, table, nowMs).value)))
                && Rotates(keys, o.cookies, RefreshSubject(keys, req, nowMs), nowMs)
    // Rotating with an access-token setting unset is the only uncaught error.
    ensures RotationCase(keys, req, table, nowMs) && !CanMintAccess(keys) <==> o.Crash?
    ensures o.Crash? ==> o == AccessMintCrash(keys)
    ensures KeepsRefresh(o)
  {
    match AccessClaim(keys, req, nowMs)
    case Some(claim) =>
      Respond(Returned, Json(200, "", ProfileOrNull(Directory.FindById(table, claim.value))), [])
    case None =>
      match RefreshClaim(keys, req, nowMs)
      case None => Respond(Thrown, Json(401, "", JsonNull), ClearBoth)
      case Some(claim) =>
        match Directory.FindById(table, claim.value)
        case None => Respond(Returned, Json(404, "", JsonNull), ClearBoth)
        case Some(user) =>
          if Revoked(claim, user) then Respond(Returned, Redirect("/", Document), ClearBoth)
          else match Jwt.Generate(keys, Jwt.Access, claim.value, nowMs)
            case Failure(e) => Crash(Misconfigured(e))
            case Success(token) =>
              Respond(Returned, Json(200, "", JsonProfile(SelectProfile(user))), [SetAccess(token)])
  }

  /** With a valid access cookie the refresh cookie is not consulted. */
  lemma AccessPathIgnoresRefresh(keys: Jwt.Keys, req: Request, table: Directory.Table,
                                 refresh: Option<Jwt.Token>, nowMs: nat)
    requires AccessClaim(keys, req, nowMs).Some?
    ensures Loader(keys, req.(refresh := refresh), table, nowMs) == Loader(keys, req, table, nowMs)
  {
  }
}

=== FILE: scenarios.dfy ===
/** Properties of the session as a whole: what one route's response does to the
    next request, across login, logout and the page loaders. */
module Scenarios {
  import opened Wrappers
  import Jwt
  import Revocation
  import Directory
  import opened Http
  import opened Session
  import IndexRoute
  import RoomRoute
  import RLayoutRoute
  import LoginRoute
  import LogoutRoute

  /** The login succeeded and redirected home with both cookies. */
  predicate LoggedIn(keys: Jwt.Keys, table: Directory.Table, username: string, password: string, loginMs: nat) {
    var o := LoginRoute.Action(keys, table, username, password, loginMs);
    o.Respond? && o.disposition == Returned
  }

  /** After a successful login, the browser's next request to the index page, while
      the access token lives, takes the fast path. */
  lemma LoginThenIndexFastPath(keys: Jwt.Keys, table: Directory.Table, username: string, password: string,
                               jar: Request, loginMs: nat, nowMs: nat)
    requires LoggedIn(keys, table, username, password, loginMs)
    requires Jwt.IsSet(keys.env, Jwt.SessionExpName)
    requires nowMs / 1000 < loginMs / 1000 + keys.lifetime(keys.env[Jwt.SessionExpName])
    ensures IndexRoute.Loader(keys, ApplyCookies(jar, LoginRoute.Action(keys, table, username, password, loginMs).cookies),
                              table, nowMs)
            == Respond(Returned, Json(200, "", JsonTrue), [])
  {
    var o := LoginRoute.Action(keys, table, username, password, loginMs);
    assert o.cookies == [o.cookies[0], o.cookies[1]];
    var jar' := ApplyCookies(jar, o.cookies);
    assert ApplyCookies(jar, o.cookies[..1]) == jar.(access := Some(o.cookies[0].token));
    assert jar'.access == Some(o.cookies[0].token);
  }

  /** Silent rotation closes the loop: once the browser stores the rotated access
      cookie, the next request within its lifetime takes the fast path. */
  lemma RotationThenFastPath(keys: Jwt.Keys, req: Request, table: Directory.Table, nowMs: nat, laterMs: nat)
    requires IndexRoute.Loader(keys, req, table, nowMs).Respond?
    requires |IndexRoute.Loader(keys, req, table, nowMs).cookies| == 1
    requires Jwt.IsSet(keys.env, Jwt.SessionExpName)
    requires laterMs / 1000 < nowMs / 1000 + keys.lifetime(keys.env[Jwt.SessionExpName])
    ensures IndexRoute.Loader(keys, ApplyCookies(req, IndexRoute.Loader(keys, req, table, nowMs).cookies), table, laterMs)
            == Respond(Returned, Json(200, "", JsonTrue), [])
  {
    var o := IndexRoute.Loader(keys, req, table, nowMs);
    assert o.cookies[1..] == [];
  }

  /** Logging out revokes the refresh tokens issued before it: presented afterwards
      without a valid access cookie, such a token sends the index loader to "/" and
      the room loader through a document reload, both clearing the cookies. */
  lemma LogoutRevokesEarlierRefresh(keys: Jwt.Keys, req: Request, table: Directory.Table, logoutMs: nat,
                                    later: Request, nowMs: nat)
    requires LogoutRoute.Action(keys, req, table, logoutMs).outcome == Respond(Returned, Redirect("/", Plain), ClearBoth)
    requires AccessClaim(keys, later, nowMs).None?
    requires RefreshClaim(keys, later, nowMs).Some?
    requires RefreshClaim(keys, later, nowMs).value.value == RefreshClaim(keys, req, logoutMs).value.value
    requires RefreshClaim(keys, later, nowMs).value.iat * 1000 < logoutMs
    ensures var table' := LogoutRoute.Action(keys, req, table, logoutMs).table;
            && IndexRoute.Loader(keys, later, table', nowMs) == Respond(Returned, Redirect("/", Plain), ClearBoth)
            && RoomRoute.Loader(keys, later, table', nowMs) == Respond(Returned, Redirect("/", Document), ClearBoth)
  {
    var subject := RefreshClaim(keys, req, logoutMs).value.value;
    Directory.FindAfterSetLogoutAt(table, subject, subject, logoutMs);
  }

  /** The `_r` layout loader decides exactly as before a logout: it reads the
      `logout` flag, which logging out never sets. */
  lemma LogoutInvisibleToRLayout(keys: Jwt.Keys, req: Request, table: Directory.Table, logoutMs: nat,
                                 later: Request, nowMs: nat)
    ensures RLayoutRoute.SameDecision(
              RLayoutRoute.Loader(keys, later, LogoutRoute.Action(keys, req, table, logoutMs).table, nowMs),
              RLayoutRoute.Loader(keys, later, table, nowMs))
  {
    var claim := RefreshClaim(keys, req, logoutMs);
    if claim.Some? && Directory.FindById(table, claim.value.value).Some? {
      RLayoutRoute.LogoutTimeIgnored(keys, later, table, claim.value.value, logoutMs, nowMs);
    }
  }

  /** Logging in again within the same wall-clock second as the logout (unless the
      logout fell on a whole second) yields a refresh token that the index loader
      already treats as revoked, because token issue times are floored to seconds. */
  lemma ReloginInLogoutSecondRevoked(keys: Jwt.Keys, table: Directory.Table, username: string, password: string,
                                     loginMs: nat, stale: Option<Jwt.Token>, nowMs: nat)
    requires Directory.WellFormed(table)
    requires LoggedIn(keys, table, username, password, loginMs)
    requires var user := Directory.FindByCredentials(table, username, password).value;
             && user.logoutAt.Some?
             && user.logoutAt.value <= loginMs
             && user.logoutAt.value / 1000 == loginMs / 1000
             && user.logoutAt.value % 1000 != 0
    requires Jwt.IsSet(keys.env, Jwt.RefreshExpName)
    requires nowMs / 1000 < loginMs / 1000 + keys.lifetime(keys.env[Jwt.RefreshExpName])
    requires Jwt.Verify(keys.env, Jwt.Access, stale, nowMs).None?
    ensures IndexRoute.Loader(keys, Request(stale, Some(LoginRoute.Action(keys, table, username, password, loginMs).cookies[1].token)),
                              table, nowMs)
            == Respond(Returned, Redirect("/", Plain), ClearBoth)
  {
    var user := Directory.FindByCredentials(table, username, password).value;
    Directory.FindByIdOfRow(table, user);
    Revocation.SameSecondIssueRevoked(loginMs, user.logoutAt.value);
  }

  /** A login in a later second than the logout yields a refresh token that still
      rotates the access cookie. */
  lemma ReloginAfterLogoutSecondRotates(keys: Jwt.Keys, table: Directory.Table, username: string, password: string,
                                        loginMs: nat, stale: Option<Jwt.Token>, nowMs: nat)
    requires Directory.WellFormed(table)
    requires LoggedIn(keys, table, username, password, loginMs)
    requires var user := Directory.FindByCredentials(table, username, password).value;
             user.logoutAt.Some? ==> user.logoutAt.value / 1000 < loginMs / 1000
    requires Jwt.IsSet(keys.env, Jwt.RefreshExpName)
    requires nowMs / 1000 < loginMs / 1000 + keys.lifetime(keys.env[Jwt.RefreshExpName])
    requires Jwt.Verify(keys.env, Jwt.Access, stale, nowMs).None?
    ensures var o := IndexRoute.Loader(keys, Request(stale, Some(LoginRoute.Action(keys, table, username, password, loginMs).cookies[1].token)),
                                       table, nowMs);
            o.Respond? && o.reply == Json(200, "", JsonNull)
            && Rotates(keys, o.cookies, Directory.FindByCredentials(table, username, password).value.id, nowMs)
  {
    var user := Directory.FindByCredentials(table, username, password).value;
    Directory.FindByIdOfRow(table, user);
    if user.logoutAt.Some? {
      Revocation.LaterSecondNotRevoked(loginMs, user.logoutAt.value);
    }
  }
}

=== FILE: seqs.dfy ===
/** Sequence searches and filters with the semantics of JavaScript's
    `Array.prototype.find` / `findIndex` and `Array.prototype.filter`. */
module Seqs {
  import opened Wrappers

  /** The index of the first element satisfying `p`, if there is one. */
  function FirstIndex<T>(s: seq<T>, p: T -> bool): (r: Option<nat>)
    ensures r.Some? ==> r.value < |s| && p(s[r.value])
    ensures r.Some? ==> forall j :: 0 <= j < r.value ==> !p(s[j])
    ensures r.None? <==> forall j :: 0 <= j < |s| ==> !p(s[j])
  {
    if |s| == 0 then None
    else if p(s[0]) then Some(0)
    else match FirstIndex(s[1..], p)
      case None => None
      case Some(i) => Some(i + 1)
  }

  /** Two sequences whose elements answer `p` and `q` alike, position by
      position, have the same first match. */
  lemma FirstIndexSamePattern<T, U>(s: seq<T>, p: T -> bool, s': seq<U>, q: U -> bool)
    requires |s| == |s'|
    requires forall j :: 0 <= j < |s| ==> p(s[j]) == q(s'[j])
    ensures FirstIndex(s, p) == FirstIndex(s', q)
  {
  }

  /** The elements satisfying `p`, in their original order. */
  function Filter<T(==)>(s: seq<T>, p: T -> bool): (r: seq<T>)
    ensures |r| <= |s|
    ensures forall i :: 0 <= i < |r| ==> r[i] in s && p(r[i])
    ensures forall j :: 0 <= j < |s| && p(s[j]) ==> s[j] in r
    // Each passing element is kept as often as it occurs, each failing one never.
    ensures forall x :: x in s ==> multiset(r)[x] == if p(x) then multiset(s)[x] else 0
  {
    if |s| == 0 then []
    else
      assert s == [s[0]] + s[1..];
      if p(s[0]) then [s[0]] + Filter(s[1..], p)
      else Filter(s[1..], p)
  }

  /** `a` can be obtained from `b` by deleting elements: each element of `b`
      is either kept as the next element of `a` or skipped. */
  predicate IsSubsequence<T(==)>(a: seq<T>, b: seq<T>)
    decreases |b|
  {
    |a| == 0 ||
    (|b| > 0 && ((a[0] == b[0] && IsSubsequence(a[1..], b[1..])) || IsSubsequence(a, b[1..])))
  }

  /** Filtering only deletes: it never reorders or duplicates. */
  lemma {:induction false} FilterIsSubsequence<T>(s: seq<T>, p: T -> bool)
    ensures IsSubsequence(Filter(s, p), s)
    decreases |s|
  {
    if |s| > 0 {
      FilterIsSubsequence(s[1..], p);
      if p(s[0]) {
        assert ([s[0]] + Filter(s[1..], p))[1..] == Filter(s[1..], p);
      }
    }
  }

  /** Filtering by a stronger predicate is filtering the result of the weaker one. */
  lemma {:induction false} FilterNarrowing<T>(s: seq<T>, p: T -> bool, q: T -> bool)
    requires forall x :: p(x) ==> q(x)
    ensures Filter(s, p) == Filter(Filter(s, q), p)
    decreases |s|
  {
    if |s| > 0 {
      FilterNarrowing(s[1..], p, q);
      if q(s[0]) {
        var w := [s[0]] + Filter(s[1..], q);
        assert w[0] == s[0] && w[1..] == Filter(s[1..], q);
      }
    }
  }

  /** When every element passes, filtering changes nothing. */
  lemma {:induction false} FilterAll<T>(s: seq<T>, p: T -> bool)
    requires forall j :: 0 <= j < |s| ==> p(s[j])
    ensures Filter(s, p) == s
    decreases |s|
  {
    if |s| > 0 {
      FilterAll(s[1..], p);
      assert [s[0]] + s[1..] == s;
    }
  }
}

=== FILE: session.dfy ===
/** The vocabulary the three page loaders share: the verified cookies, the
    logout-based revocation of a refresh claim, and what a rotated access cookie
    is. */
module Session {
  import opened Wrappers
  import Jwt
  import Revocation
  import Directory
  import opened Http

  /** The access cookie's claim, if the cookie verifies. */
  function AccessClaim(keys: Jwt.Keys, req: Request, nowMs: nat): Option<Jwt.Claim> {
    Jwt.Verify(keys.env, Jwt.Access, req.access, nowMs)
  }

  /** The refresh cookie's claim, if the cookie verifies. */
  function RefreshClaim(keys: Jwt.Keys, req: Request, nowMs: nat): Option<Jwt.Claim> {
    Jwt.Verify(keys.env, Jwt.Refresh, req.refresh, nowMs)
  }

  /** The user has a logout time, and the claim was issued before it. A user who
      never logged out has a null `logout_at`, which revokes nothing. */
  predicate Revoked(claim: Jwt.Claim, user: Directory.User) {
    user.logoutAt.Some? && Revocation.IsRefreshTokenAccessable(claim.iat, user.logoutAt.value)
  }

  /** No valid access cookie, but a valid refresh cookie: the loaders fall back on
      the refresh claim. */
  predicate OnRefreshPath(keys: Jwt.Keys, req: Request, nowMs: nat) {
    AccessClaim(keys, req, nowMs).None? && RefreshClaim(keys, req, nowMs).Some?
  }

  /** The subject of the refresh claim. */
  function RefreshSubject(keys: Jwt.Keys, req: Request, nowMs: nat): string
    requires RefreshClaim(keys, req, nowMs).Some?
  {
    RefreshClaim(keys, req, nowMs).value.value
  }

  /** The row the refresh claim's subject names, if there is one. */
  function RefreshUser(keys: Jwt.Keys, req: Request, table: Directory.Table, nowMs: nat): Option<Directory.User>
    requires RefreshClaim(keys, req, nowMs).Some?
  {
    Directory.FindById(table, RefreshSubject(keys, req, nowMs))
  }

  /** On the refresh path, and the subject's row is gone. */
  predicate MissingUserCase(keys: Jwt.Keys, req: Request, table: Directory.Table, nowMs: nat) {
    OnRefreshPath(keys, req, nowMs) && RefreshUser(keys, req, table, nowMs).None?
  }

  /** On the refresh path, and the refresh claim predates the subject's logout. */
  predicate RevokedCase(keys: Jwt.Keys, req: Request, table: Directory.Table, nowMs: nat) {
    && OnRefreshPath(keys, req, nowMs)
    && RefreshUser(keys, req, table, nowMs).Some?
    && Revoked(RefreshClaim(keys, req, nowMs).value, RefreshUser(keys, req, table, nowMs).value)
  }

  /** On the refresh path, with the subject present and the claim not revoked: the
      access cookie is to be rotated. */
  predicate RotationCase(keys: Jwt.Keys, req: Request, table: Directory.Table, nowMs: nat) {
    && OnRefreshPath(keys, req, nowMs)
    && RefreshUser(keys, req, table, nowMs).Some?
    && !Revoked(RefreshClaim(keys, req, nowMs).value, RefreshUser(keys, req, table, nowMs).value)
  }

  /** Minting an access token would succeed. */
  predicate CanMintAccess(keys: Jwt.Keys) {
    Jwt.CanMint(keys.env, Jwt.Access)
  }

  /** The uncaught error of minting an access token with a setting unset: the
      getter of the first unset variable throws. */
  function AccessMintCrash(keys: Jwt.Keys): Outcome {
    Crash(Misconfigured(Jwt.Unset(Jwt.FirstUnset(keys.env, Jwt.Access))))
  }

  /** The cookies are exactly one new access cookie, minted now for `subject`. */
  ghost predicate Rotates(keys: Jwt.Keys, cookies: seq<CookieAction>, subject: string, nowMs: nat) {
    && |cookies| == 1
    && cookies[0].SetAccess?
    && Jwt.Minted(keys, Jwt.Access, cookies[0].token, subject, nowMs)
  }

  /** No header of the response sets the refresh cookie. */
  predicate KeepsRefresh(o: Outcome) {
    o.Respond? ==> forall i :: 0 <= i < |o.cookies| ==> !o.cookies[i].SetRefresh?
  }
}

=== FILE: text.dfy ===
/** The two string operations the roster search uses: `toLowerCase` (restricted to
    ASCII letters) and `String.prototype.includes`. */
module Text {

  predicate IsAsciiUpper(c: char) {
    'A' <= c <= 'Z'
  }

  /** Lowercase of one character; characters other than `A`-`Z` are unchanged. */
  function LowerChar(c: char): (d: char)
    ensures !IsAsciiUpper(d)
    ensures IsAsciiUpper(c) ==> d as int == c as int + 32
    ensures !IsAsciiUpper(c) ==> d == c
  {
    if IsAsciiUpper(c) then (c as int + 32) as char else c
  }

  /** `s.toLowerCase()`, character by character. */
  function Lower(s: string): (r: string)
    ensures |r| == |s|
    ensures forall i :: 0 <= i < |s| ==> r[i] == LowerChar(s[i])
    ensures forall i :: 0 <= i < |r| ==> !IsAsciiUpper(r[i])
  {
    seq(|s|, i requires 0 <= i < |s| => LowerChar(s[i]))
  }

  /** `q` occurs in `s` starting at position `i`. */
  predicate OccursAt(s: string, q: string, i: int) {
    0 <= i && i + |q| <= |s| && s[i..i + |q|] == q
  }

  /** `s.includes(q)`: a left-to-right scan for an occurrence of `q`. */
  function Includes(s: string, q: string): (b: bool)
    ensures b <==> exists i :: OccursAt(s, q, i)
    decreases |s|
  {
    if |q| > |s| then false
    else if s[..|q|] == q then (assert OccursAt(s, q, 0); true)
    else (ShiftOccurrence(s, q); Includes(s[1..], q))
  }

  /** An occurrence in `s` at a positive position is an occurrence in `s[1..]`
      one position earlier, and conversely. */
  lemma ShiftOccurrence(s: string, q: string)
    requires |s| > 0
    ensures forall j :: 1 <= j && OccursAt(s, q, j) ==> OccursAt(s[1..], q, j - 1)
    ensures forall i :: OccursAt(s[1..], q, i) ==> OccursAt(s, q, i + 1)
  {
    forall j | 1 <= j && OccursAt(s, q, j)
      ensures OccursAt(s[1..], q, j - 1)
    {
      assert s[1..][j - 1..j - 1 + |q|] == s[j..j + |q|];
    }
    forall i | OccursAt(s[1..], q, i)
      ensures OccursAt(s, q, i + 1)
    {
      assert s[1..][i..i + |q|] == s[i + 1..i + 1 + |q|];
    }
  }
}

=== FILE: wrappers.dfy ===
/** Option and Result: the failure-compatible wrappers the model returns where the
    source returns `null` or throws. */
module Wrappers {

  /** A value that may be absent (`null` / `undefined` in the source). */
  datatype Option<+T> = None | Some(value: T)

  /** Either a value or the error the source would have thrown. */
  datatype Result<+R, +E> = Success(value: R) | Failure(error: E) {

    predicate IsFailure() {
      Failure?
    }

    function PropagateFailure<U>(): Result<U, E>
      requires Failure?
    {
      Failure(error)
    }

    function Extract(): R
      requires Success?
    {
      value
    }
  }
}
